=== FILE: README.md ===
# webrtc-demo core, modelled in Dafny

This project models the sequential core of a small WebRTC demo that has two
parts. The **signal relay** accepts a client's handshake messages and forwards
them to a worker. The **worker** receives the media tracks, reassembles VP8
video and Opus audio samples, writes them as WebM to an ffmpeg decoder and to
a file, and pops fixed-size decoded frames.

The model has four modules, and it follows the code as written:

- `Base`: bytes, `Option` and zeroed buffers.
- `SignalServer` (signalserver/handle.go):
  - the three handshake statuses and the `CheckStatus` transition table;
  - the per-message step of the relay's read loop: decode, switch on the key, maybe update the status, maybe `Send`;
  - the `isDownClosed` guard in `Send`.

  It also holds two corrected definitions, which state what the design intends:
  - decoding into exported fields;
  - a switch whose guards consult the current status.
- `MediaParser` (parser/parser.go):
  - parser construction;
  - the VP8 keyframe test and the one-shot geometry read from the first keyframe;
  - lazy creation of the pipe, file and audio WebM writers;
  - the separate wrapping 32-bit timestamp counters, divided by 90 for video and by 48 for audio;
  - `Close` and its parts;
  - `PopImage`'s fixed-size buffer;
  - the reachable-state invariant, with proofs that every operation preserves it.
- `Worker` (worker/worker.go):
  - the 480x640 frame geometry and `FrameSize`;
  - `NewWorkerHandler`;
  - the `OnTrack` read loop that stops once the parser is closed and otherwise routes each packet by track kind;
  - the `Run` loop that pops one `FrameSize` frame per round.

Abstractions:

- **Relay state.** The client connection is not modelled. The worker connection is the list of payloads written to it.
- **Decoding a frame.** A frame received by the relay is its raw bytes plus the JSON object they parse to. It is `None` exactly when `json.Unmarshal` returns an error. The literal `null` decodes without error and sets nothing, so it is the empty object.
- **Sample builder.** The pion sample builder is taken as an input: each push is given the samples the builder releases.
- **WebM writers.** Each writer is its track entry plus the list of `(keyframe, timestamp, data)` blocks written to it. It is `None` when nil. Closing a writer moves its contents into a trace of side effects.
- **ffmpeg.** The ffmpeg process is the byte stream its output still holds, plus a `Wait` effect.
- **Go integers.** The `uint32` counters are integers in `[0, 2^32)` and wrap explicitly with `AddU32`. A `uint8` shift is done in 64 bits and masked back to the low eight.

## Model

| member | source | states |
|---|---|---|
| `SignalServer.NewSignalHandler` | signalserver/handle.go:45-54 | a new session is at Start with the client leg open, the worker leg closed, and nothing forwarded |
| `SignalServer.CheckStatus` | signalserver/handle.go:87-98 | accepts exactly (Start,Sdp), (Sdp,Candidate) and (Candidate,Candidate); any accepted pair names two real statuses and never goes backwards |
| `SignalServer.CheckStatusSuccessorUnique` | signalserver/handle.go:88-94 | a status has at most one accepted successor |
| `SignalServer.CheckStatusSuccessorExists` | signalserver/handle.go:13-16 | a value has an accepted successor exactly when it is one of the three statuses, so unknown values are rejected as `from` |
| `SignalServer.Send` | signalserver/handle.go:183-191 | the payload is appended to the worker leg only while it is open; a closed leg leaves the handler as it was, and nothing but the worker leg ever changes |
| `SignalServer.SendBeforeDial` | signalserver/handle.go:183-191 | on a new session, before `Listen` has dialled the worker, a send writes nothing |
| `SignalServer.SendAfterDial` | signalserver/handle.go:183-191 | after the dial at line 146 opens the worker leg, a send appends exactly its payload |
| `SignalServer.SendAfterClose` | signalserver/handle.go:183-191 | after the deferred close at line 153 marks the worker leg closed, a send changes nothing |
| `SignalServer.Route` | signalserver/handle.go:110-125 | an sdp key sets Sdp and a candidate key sets Candidate, whatever the prior status, and each forwards the raw frame; any other key, including "", changes nothing |
| `SignalServer.Unmarshal` | signalserver/handle.go:40-43 | decoding returns an error exactly on the frames Go rejects; every other frame, `null` included, leaves the message with its previous contents, because its fields are unexported |
| `SignalServer.Step` | signalserver/handle.go:101-125 | an undecodable frame is skipped with nothing changed; a decodable one is routed on the key held by the reused message |
| `SignalServer.RunLoop` | signalserver/handle.go:102-125 | the loop only appends to the worker leg, only ever sets the status to Sdp or Candidate, and changes nothing else about the handler |
| `SignalServer.Run` | signalserver/handle.go:100-135 | as written, the loop started from the zero message leaves the handler unchanged, whatever the client sends |
| `SignalServer.RunLoopInert` | signalserver/handle.go:102-125 | while the decode target holds neither routed key, no sequence of frames changes the handler |
| `SignalServer.RunNeverForwards` | signalserver/handle.go:100-135 | as written, the read loop never changes the status and forwards nothing, whatever the client sends |
| `SignalServer.SdpFrameNotRelayed` | signalserver/handle.go:40-43 | a well-formed sdp message on a fresh session with the worker leg open is not relayed |
| `SignalServer.CandidateForwardedAtStart` | signalserver/handle.go:118-124 | the as-written switch relays a candidate at Start, although the table rejects Start to Candidate |
| `SignalServer.SdpRegressesFromCandidate` | signalserver/handle.go:111-117 | the as-written switch moves a session at Candidate back to Sdp |
| `SignalServer.UnmarshalExported` | signalserver/handle.go:40-43 | with exported fields, decoding fails exactly on the frames Go rejects; otherwise each field takes the value of its member when the member is present and keeps its previous value when it is absent |
| `SignalServer.NullKeepsMessage` | signalserver/handle.go:104 | a `null` frame decodes without error and leaves the reused message as it was, with either decoding |
| `SignalServer.UnmarshalExportedRoundTrip` | signalserver/handle.go:40-43 | with exported fields, decoding the JSON a client sends for a message yields that message |
| `SignalServer.GuardedRoute` | signalserver/handle.go:110-125 | with guards that consult the current status, an accepted key moves the status to its target and forwards the frame; a rejected one changes nothing; the status never decreases |
| `SignalServer.GuardedRunNeverRegresses` | signalserver/handle.go:87-98 | with the corrected decode and switch, no frame sequence lowers the status |
| `SignalServer.GuardedCandidatesRelayed` | signalserver/handle.go:118-124 | past Start, every candidate is relayed in order and the status ends at Candidate |
| `SignalServer.GuardedHandshake` | signalserver/handle.go:100-135 | on a fresh session with the worker leg open, one sdp followed by candidates is relayed entirely and in order, ending at Candidate |
| `SignalServer.GuardedDropsEarlyCandidate` | signalserver/handle.go:119-123 | with the corrected guard, a candidate at Start is dropped |
| `MediaParser.AddU32` | parser/parser.go:19-21 | `uint32` addition: the exact sum when it fits, the sum minus 2^32 when it does not |
| `MediaParser.NewParser` | parser/parser.go:37-53 | a new parser is open, has seen no keyframe, has zero counters and no writers, owns the ffmpeg process, and holds the requested geometry converted to `uint64` |
| `MediaParser.IsKeyframe` | parser/parser.go:178 | only a non-empty sample can be a keyframe, and a non-empty one is a keyframe exactly when its first byte is even |
| `MediaParser.KeyframeIffFirstByteEven` | parser/parser.go:178 | a sample is a keyframe exactly when bit 0 of its first byte is clear |
| `MediaParser.ShiftByte` | parser/parser.go:180 | a `uint8` shifted left is truncated back to eight bits, so a shift by 8 or more bits yields 0 |
| `MediaParser.ExtractGeometry` | parser/parser.go:180-182 | the as-written read gives width = byte 6 and height = (byte 9 mod 64) * 256, both below 2^14 |
| `MediaParser.GeometryDependsOnBytes6And9` | parser/parser.go:180-182 | the width varies exactly with byte 6, and the height depends only on byte 9 |
| `MediaParser.RfcGeometry` | parser/parser.go:179-182 | the section 9.1 RFC 6386 read yields two 14-bit dimensions |
| `MediaParser.KeyframeHeader` | parser/parser.go:178 | the encoded header has ten bytes and is classified as a keyframe |
| `MediaParser.RfcGeometryRoundTrip` | parser/parser.go:179-182 | the RFC read recovers the dimensions a keyframe header encodes |
| `MediaParser.ExtractGeometryOfHeader` | parser/parser.go:180-182 | the as-written read of any header gives the width's low byte and the height with its low byte cleared |
| `MediaParser.GeometryMisreads640x480` | parser/parser.go:180 | a 640x480 keyframe is read as 128x256 by the code and as 640x480 by the RFC layout |
| `MediaParser.ExtractAgreesWithRfcIff` | parser/parser.go:180-182 | the two reads agree on width exactly when the width's high six bits are zero, and on height exactly when byte 8 is zero |
| `MediaParser.WritePipe` | parser/parser.go:188-194 | a pipe write happens only while the pipe writer exists and changes only the pipe writer and its counter |
| `MediaParser.WriteFile` | parser/parser.go:196-202 | a file write happens only while the file writer exists and changes only the file writer and its counter |
| `MediaParser.VideoSampleStep` | parser/parser.go:178-202 | after a video sample a keyframe has been seen exactly when one had been seen before or this sample is one; the step never touches the closed flag, the ffmpeg state, the effects or the audio counter; after the first keyframe it never changes the geometry or the audio writer |
| `MediaParser.AudioSampleStep` | parser/parser.go:160-166 | an audio sample is dropped while the audio writer is nil, and otherwise changes only the audio writer and counter |
| `MediaParser.PushVideo` | parser/parser.go:170-204 | afterwards a keyframe has been seen exactly when one had been seen before or the samples contain one; the closed flag, the ffmpeg state, the effects and the audio counter never change, nor the audio writer once a keyframe had been seen |
| `MediaParser.PushAudio` | parser/parser.go:152-168 | nothing changes while the audio writer is nil; otherwise the writer stays open on the same track, and only it and the audio counter change |
| `MediaParser.ClosePipe` | parser/parser.go:81-88 | closing the pipe leaves it nil, hands an open writer's contents over once, and does nothing when it is already nil |
| `MediaParser.CloseFile` | parser/parser.go:128-142 | closing the file leaves the file and audio writers nil, does nothing when both are already nil, and changes nothing but the effect trace |
| `MediaParser.CloseFFmpeg` | parser/parser.go:144-150 | every call records a `Wait` call while the handle exists, because the handle is never cleared |
| `MediaParser.Close` | parser/parser.go:55-60 | close marks the parser closed, leaves all three writers nil, only appends to the effects, and changes nothing else |
| `MediaParser.CloseOrder` | parser/parser.go:55-60 | on an open parser, close hands over the pipe, file video and file audio writers in that order, each with its full contents, then calls `Wait` on ffmpeg |
| `MediaParser.CloseIdempotent` | parser/parser.go:81-142 | a second close closes no writer again; it only calls `Wait` on ffmpeg once more |
| `MediaParser.PopImage` | parser/parser.go:206-214 | the buffer always has exactly `size` bytes: the next `size` bytes of ffmpeg's output, or what is left followed by zeros; nothing else changes |
| `MediaParser.NewParserInv` | parser/parser.go:37-53 | a new parser satisfies the reachable-state invariant |
| `MediaParser.VideoStepOpen` | parser/parser.go:188-202 | with the writers open, one video sample advances both video counters together and appends the same block to the pipe and the file |
| `MediaParser.VideoSampleStepInv` | parser/parser.go:178-202 | one video sample preserves the invariant |
| `MediaParser.PushVideoInv` | parser/parser.go:170-204 | pushing video preserves the invariant: the writers exist together, the pipe and file agree, the counters agree, and the track geometry is the parser's |
| `MediaParser.AudioSampleStepInv` | parser/parser.go:160-166 | one audio sample preserves the invariant |
| `MediaParser.PushAudioInv` | parser/parser.go:152-168 | pushing audio preserves the invariant |
| `MediaParser.CloseInv` | parser/parser.go:55-60 | close preserves the invariant |
| `MediaParser.NothingBeforeFirstKeyframe` | parser/parser.go:188-202 | before the first keyframe, non-keyframes change nothing: no write happens and no counter moves |
| `MediaParser.AudioDroppedWithoutWriter` | parser/parser.go:160 | while the audio writer is nil, pushing audio changes nothing |
| `MediaParser.GeometryFrozen` | parser/parser.go:179-186 | once a keyframe has been seen, pushing video never changes the width or height again |
| `MediaParser.FirstKeyframeSetsGeometry` | parser/parser.go:178-186 | from a parser that has seen no keyframe, the geometry after a push is the one read from the first keyframe in it |
| `MediaParser.AddU32Assoc` | parser/parser.go:189 | wrapping addition is associative, so a counter advanced sample by sample equals the counter plus the wrapped total |
| `MediaParser.VideoWritesCons` | parser/parser.go:188-194 | a block written ahead of a correct trace of the remaining samples gives a correct trace of them all |
| `MediaParser.AudioWritesCons` | parser/parser.go:160-166 | the same extension for audio blocks |
| `MediaParser.PushVideoWrites` | parser/parser.go:188-202 | with the writers open, pushing video writes one block per sample to both pipe and file: its keyframe flag, the running 32-bit sum of durations including it divided by 90, and its data |
| `MediaParser.PushAudioWrites` | parser/parser.go:152-168 | with the audio writer open, pushing audio writes one keyframe block per sample, stamped with the running 32-bit sum divided by 48, and changes nothing but the audio writer and counter |
| `MediaParser.PushVideoFrame` | parser/parser.go:170-204 | after pushing video a keyframe has been seen exactly when the samples contain one or one had been seen before; pushing video never changes the closed flag, the ffmpeg state, the effects or the audio counter, nor the audio writer after the first keyframe |
| `MediaParser.PushAudioFrame` | parser/parser.go:152-168 | pushing audio changes nothing but the audio writer and the audio counter |
| `MediaParser.FirstKeyframeWritten` | parser/parser.go:179-202 | the keyframe that opens the writers is itself written, as the first block of both the new pipe and file writers, stamped with its own duration over 90; the audio writer is open and empty |
| `MediaParser.PushVideoAppend` | parser/parser.go:170-204 | pushing `a` and then `b` is the same as pushing `a + b` |
| `MediaParser.PushVideoFromFirstKeyframe` | parser/parser.go:178-202 | from a parser that has seen no keyframe, the samples before the first keyframe are not written; from the keyframe on, each sample gives one block to both the pipe and the file, carrying its keyframe flag, the running 32-bit sum of durations from 0 over 90, and its data; the writers carry the keyframe's geometry |
| `Worker.NewWorkerHandler` | worker/worker.go:27-35 | a new handler's parser is new, satisfies the invariant, and is configured for 480x640; no result has been published |
| `Worker.Dispatch` | worker/worker.go:83-88 | an audio packet touches only the audio writer and counter, and once the audio writer exists it writes every sample as a stamped block; after a video packet, a keyframe has been seen exactly when one had been seen before or its samples contain one, the audio counter has not moved, and once the writers exist every sample is written to both pipe and file; an unknown kind changes nothing; routing never closes the parser or consumes ffmpeg's output |
| `Worker.OnTrack` | worker/worker.go:73-90 | on a closed parser the loop stops before pushing anything, whatever the track holds; on an open one it pushes every packet read, in order, to the parser |
| `Worker.DispatchInv` | worker/worker.go:83-88 | routing one packet preserves the parser invariant |
| `Worker.DispatchAllInv` | worker/worker.go:73-90 | routing a track preserves the parser invariant |
| `Worker.AudioBeforeKeyframeDropped` | worker/worker.go:84-85 | an audio track routed before any video keyframe is dropped whole |
| `Worker.UnknownKindDropped` | worker/worker.go:83-88 | a track of any other kind never reaches the parser |
| `Worker.VideoTrackKeepsAudioCounter` | worker/worker.go:86-87 | a video track never moves the audio counter |
| `Worker.FirstKeyframeOverridesConfiguredGeometry` | worker/worker.go:31 | on a new handler, the first video keyframe replaces the configured 480x640 with its as-written reading |
| `Worker.PaddedWindow` | parser/parser.go:207-208 | a window of the padded output is the output itself, its tail followed by zeros, or zeros only |
| `Worker.PopRound` | worker/worker.go:39 | one round pops the next `FrameSize` window of the padded output, and the pipe advances by one frame |
| `Worker.Run` | worker/worker.go:37-51 | the context is consulted only after a round, so there is at least one round; every image has exactly 921600 bytes; the images are consecutive frames of ffmpeg's output, padded with zeros once it runs dry; one "pop image success" is published per round |

## Left out

- Serving and dialling in signalserver/handle.go (`Serve`, `Listen`) are not modelled: WebSocket upgrade, dialling, the downstream read goroutine and context timeouts are I/O and concurrency. Only their state changes are kept: `DownstreamDialed` and `DownstreamClosed`.
- SignalServer.Run: the loop runs over a finite sequence of frames received so far. Cancellation only stops the loop, so it is covered by taking a prefix. A failed read is a frame that does not decode.
- The session establishment of webrtc.go and worker/webrtc.go, and the ffmpeg launch of parser/utils.go, are not part of this model: they are foreign calls, goroutines and timers.
- Sample reassembly and WebM/EBML serialisation are foreign libraries; their outputs are inputs here.
  - In the source, `NewParser` leaves both sample builders nil and nothing assigns them, so a push would dereference nil. The model gives each push the samples a builder would release.
- UnmarshalExported: a member that is neither a string nor `null` makes Go's decoder return an error, yet Go still fills the other member. A `null` member is ignored without error, which the model expresses as an absent member. The model's objects map names to strings, so they cannot express the non-string case. The corrected loop `GuardedRunLoop` keeps the reused message unchanged on every error, whereas Go would carry such a partial fill over to the next frame.
- UnmarshalExported: Go matches member names to fields case-insensitively, so `{"KEY":"sdp"}` would fill the key. The model matches only the exact names `key` and `value`.
- The audio track's `SamplingFrequency` is floating-point metadata and is not modelled.
- Write errors are not modelled: pipe and file write errors are only logged, and an audio write error panics.
- Init errors of the writers are not modelled: the source would index a nil slice.
- MediaParser.PushVideo requires at least one byte in every video sample, and ten bytes in the keyframe that arrives while none has been seen, the only one whose geometry is read. Shorter samples make the source panic with an index out of range, which is not modelled. Later keyframes of any non-zero length are accepted, as in the source.
- MediaParser.CloseFFmpeg: the `FFmpegWaited` effect does not tell the first `Wait` apart from later ones. From the second call on, Go's `Wait` returns an error at once without waiting, and the source only logs it. Errors and logging are not modelled.
- MediaParser.PopImage requires a non-negative size, because `make` panics on a negative one. The model has no link between blocks written to the pipe and the frames ffmpeg decodes; the decoder's output is a given byte stream.
- MediaParser.NewParser requires both dimensions to be in the range of Go's `int`, the type of its parameters.
- The RTCP ticker in `OnTrack` and `OnDataChannel`'s polling of the result channel are timers, channels and concurrency.
- Worker.OnTrack: the track is a finite sequence of packets. A failed read is not modelled; the source pushes the nil packet it returns.
- Worker.OnTrack: a `Close` from another task between two reads is not modelled. No code in the repository calls `Close`, and the parser closes itself nowhere.
- Worker.Run: a result is appended to a list. The source's send on an unbuffered channel blocks until `OnDataChannel` receives it, which is concurrency.
- Logging, flags, HTTP routing and request identifiers are not modelled.

## Findings

The `MediaParser` and `Worker` modules follow the code as written: `PushVideo` uses the as-written geometry read. The relay's corrected decode and switch are used by the corrected loop `SignalServer.GuardedRunLoop`. The corrected geometry read `MediaParser.RfcGeometry` stands beside the as-written one, with its round trip proved.

| source | as written | input that shows it | evidently intended | confidence | as-written member | corrected member |
|---|---|---|---|---|---|---|
| signalserver/handle.go:40-43 | `Message` has only unexported fields, so `json.Unmarshal` never fills them and the key stays "" | the frame `{"key":"sdp","value":"v=0"}` on a session whose worker leg is open: nothing is relayed and the status stays Start | exported fields with the `key`/`value` tags, so the decoded key drives the switch | not executed; high | `SignalServer.SdpFrameNotRelayed` | `SignalServer.UnmarshalExportedRoundTrip` |
| signalserver/handle.go:112 | the sdp guard passes the constants (Start, Sdp) instead of the current status, so it always holds | once the handle.go:40-43 row is fixed, so that keys are decoded: a session at Candidate receiving an sdp message moves back to Sdp (as written, the key is never decoded and this branch is never reached) | `CheckStatus(sh.status, SignalStatusSdp)` | not executed; high | `SignalServer.SdpRegressesFromCandidate` | `SignalServer.GuardedRunNeverRegresses` |
| signalserver/handle.go:119 | the candidate guard passes constant pairs instead of the current status, so it always holds | once the handle.go:40-43 row is fixed, so that keys are decoded: a candidate message on a session still at Start is relayed (as written, the key is never decoded and this branch is never reached) | `CheckStatus(sh.status, SignalStatusCandidate)` | not executed; high | `SignalServer.CandidateForwardedAtStart` | `SignalServer.GuardedDropsEarlyCandidate` |
| parser/parser.go:180 | bytes 7 and 8 are shifted while still `uint8`, so the shifts yield 0 and the high bits of both dimensions are lost | a 640x480 VP8 keyframe is read as 128x256 | widen each byte before shifting, as section 9.1 of RFC 6386 lays out | not executed; high | `MediaParser.GeometryMisreads640x480` | `MediaParser.RfcGeometryRoundTrip` |

=== FILE: base.dfy ===
/** Definitions shared by the relay, parser and worker models. */
module Base {

  /** Go's `byte` (`uint8`): arithmetic on it wraps and shifts truncate. */
  type byte = bv8

  /** A value that may be absent: Go's nil pointer or nil interface. */
  datatype Option<+T> = None | Some(value: T)

  /** Go's `byte(x)` for a value that already fits in a byte. It is built up
      one step at a time, rather than written `x as byte`, because the
      solver's proof that such a conversion keeps the value is unreliable:
      it succeeds or runs out of resource depending on the random seed. */
  function ByteOf(x: int): (b: byte)
    requires 0 <= x < 256
    ensures b as int == x
  {
    if x == 0 then 0 else
      var prev := ByteOf(x - 1);
      assert prev < 255;
      prev + 1
  }

  /** A freshly allocated Go byte slice: `make([]byte, n)` is all zeros. */
  function Zeros(n: nat): (z: seq<byte>)
    ensures |z| == n
    ensures forall i :: 0 <= i < n ==> z[i] == 0
  {
    seq(n, _ => 0)
  }
}

=== FILE: parser.dfy ===
/** The media parser of parser/parser.go: keyframe detection, one-shot
    geometry extraction, lazy creation of the three webm writers on the first
    keyframe, the wrapping 32-bit timestamp counters, idempotent closing, and
    fixed-size reads of decoded frames.

    The pion sample builder is not modelled: each push takes the samples the
    builder releases as its input. Each webm writer is the list of blocks it
    has been asked to write; closing a writer moves that list into the trace
    of side effects. The ffmpeg process is its output byte stream plus the
    `Wait` effect. */
module MediaParser {
  import opened Base

  const Uint32Modulus: int := 0x1_0000_0000
  const Uint64Modulus: int := 0x1_0000_0000_0000_0000

  type uint32 = x: int | 0 <= x < Uint32Modulus
  type uint64 = x: int | 0 <= x < Uint64Modulus

  /** Go's `a + b` on `uint32`: the sum wraps around. */
  function AddU32(a: uint32, b: uint32): (r: uint32)
    ensures a + b < Uint32Modulus ==> r == a + b
    ensures a + b >= Uint32Modulus ==> r == a + b - Uint32Modulus
  {
    (a + b) % Uint32Modulus
  }

  /** RTP clock ticks per webm millisecond: 90 kHz video, 48 kHz audio. */
  const VideoClockDivisor: nat := 90
  const AudioClockDivisor: nat := 48

  /** Largest value a 14-bit VP8 dimension field can hold, plus one. */
  const DimensionLimit: nat := 0x4000

  /** One reassembled media sample: payload and duration in clock ticks. */
  datatype Sample = Sample(data: seq<byte>, samples: uint32)

  /** One `Write(keyframe, timestamp, data)` call on a block writer. */
  datatype Block = Block(keyframe: bool, timestamp: nat, data: seq<byte>)

  datatype TrackKind = VideoKind(pixelWidth: uint64, pixelHeight: uint64) | AudioKind(channels: nat)

  /** The webm track entry a writer is created with. */
  datatype TrackEntry = TrackEntry(
    name: string,
    trackNumber: nat,
    trackUid: nat,
    codecId: string,
    trackType: nat,
    defaultDuration: nat,
    kind: TrackKind)

  /** An open block writer: its track and every block written to it so far. */
  datatype Writer = Writer(track: TrackEntry, blocks: seq<Block>)

  datatype WriterId = PipeVideo | FileVideo | FileAudio

  /** Side effects that leave the parser: a writer closed with its full
      contents, or a `Wait` on the ffmpeg process. */
  datatype Effect = WriterClosed(writer: WriterId, contents: Writer) | FFmpegWaited

  datatype Geometry = Geometry(width: uint64, height: uint64)

  /** The parser. `outputPipe` is what ffmpeg has yet to deliver. */
  datatype Parser = Parser(
    width: uint64,
    height: uint64,
    isClosed: bool,
    isSeenKeyframe: bool,
    videoTimestamp: uint32,
    audioTimestamp: uint32,
    fileTimestamp: uint32,
    audioWriter: Option<Writer>,
    pipeWriter: Option<Writer>,
    fileWriter: Option<Writer>,
    hasFFmpeg: bool,
    outputPipe: seq<byte>,
    effects: seq<Effect>)

  /** The video track of both the pipe and the file writer. */
  function VideoEntry(g: Geometry): TrackEntry {
    TrackEntry("Video", 2, 67890, "V_VP8", 1, 33333333, VideoKind(g.width, g.height))
  }

  /** The audio track of the file writer. */
  function AudioEntry(): TrackEntry {
    TrackEntry("Audio", 1, 12345, "A_OPUS", 2, 20000000, AudioKind(2))
  }

  /** The state just after construction: nothing seen, nothing open, nothing written. */
  predicate Pristine(p: Parser) {
    && !p.isClosed && !p.isSeenKeyframe
    && p.videoTimestamp == 0 && p.audioTimestamp == 0 && p.fileTimestamp == 0
    && p.audioWriter.None? && p.pipeWriter.None? && p.fileWriter.None?
    && p.hasFFmpeg && p.effects == []
  }

  /** The range of Go's 64-bit `int`. */
  predicate IsInt(x: int) {
    -0x8000_0000_0000_0000 <= x < 0x8000_0000_0000_0000
  }

  /** `NewParser(w, h)`: records the guessed geometry, converted to `uint64`,
      and owns the ffmpeg process started for it, whose output is given. */
  function NewParser(w: int, h: int, ffmpegOutput: seq<byte>): (p: Parser)
    requires IsInt(w) && IsInt(h)
    ensures Pristine(p)
    ensures p.outputPipe == ffmpegOutput
    ensures 0 <= w ==> p.width == w
    ensures 0 <= h ==> p.height == h
    ensures w < 0 ==> p.width == w + Uint64Modulus
    ensures h < 0 ==> p.height == h + Uint64Modulus
  {
    Parser(w % Uint64Modulus, h % Uint64Modulus, false, false, 0, 0, 0,
           None, None, None, true, ffmpegOutput, [])
  }

  // ---------------------------------------------------------------------
  // Keyframes and geometry
  // ---------------------------------------------------------------------

  /** The VP8 frame-tag test: bit 0 of the first byte clear marks a keyframe.
      An empty sample, on which the source would panic, is no keyframe. */
  function IsKeyframe(data: seq<byte>): (k: bool)
    ensures k ==> |data| >= 1
    ensures |data| >= 1 ==> (k <==> (data[0] as int) % 2 == 0)
  {
    |data| >= 1 && data[0] & 1 == 0
  }

  /** A video sample the loop body can take without an index panic: the
      keyframe test reads byte 0, and the geometry read, made only for a
      keyframe while none has been seen, reads bytes 6 to 9. */
  predicate ReadableSample(seen: bool, s: Sample) {
    |s.data| >= 1 && (!seen && IsKeyframe(s.data) ==> |s.data| >= 10)
  }

  /** Whether a keyframe has been seen after pushing `ss`, starting from `seen`. */
  function SeenAfter(seen: bool, ss: seq<Sample>): bool
    decreases |ss|
  {
    if ss == [] then seen else SeenAfter(seen || IsKeyframe(ss[0].data), ss[1..])
  }

  /** A sample sequence `PushVideo` can take without an index panic from a
      parser whose keyframe flag is `seen`. */
  predicate ReadableVideo(seen: bool, ss: seq<Sample>)
    decreases |ss|
  {
    ss == [] || (ReadableSample(seen, ss[0]) && ReadableVideo(seen || IsKeyframe(ss[0].data), ss[1..]))
  }

  /** A sample is a keyframe exactly when its first byte is even. */
  lemma KeyframeIffFirstByteEven(data: seq<byte>)
    requires |data| >= 1
    ensures IsKeyframe(data) <==> (data[0] as int) % 2 == 0
  {
  }

  /** Go's `b << n` on a `uint8` with a constant shift: bits shifted past
      bit 7 are lost, so a shift by 8 or more yields 0. */
  function ShiftByte(b: byte, n: nat): (r: byte)
    requires n < 64
    ensures n >= 8 ==> r == 0
  {
    (((b as bv64) << n) & 0xFF) as bv8
  }

  /** The geometry read of `PushVideo`, on 64-bit `uint`. The shifts of bytes
      7 and 8 happen in `uint8` and vanish, so width is byte 6 alone and
      height is the low six bits of byte 9, times 256. */
  function ExtractGeometry(data: seq<byte>): (g: Geometry)
    requires |data| >= 10
    ensures g.width == data[6] as int
    ensures g.height == (data[9] as int % 64) * 256
    ensures g.width < DimensionLimit && g.height < DimensionLimit
  {
    var raw := RawDimensions(data);
    GeometryOfRaw(raw, data[6], data[9]);
    var w: int := (raw & 0x3FFF) as int;
    var h: int := ((raw >> 16) & 0x3FFF) as int;
    assert w == data[6] as int && h == (data[9] as int % 64) * 256;
    Geometry(w, h)
  }

  /** The 64-bit word `PushVideo` assembles from bytes 6 to 9, each byte
      shifted in its own `uint8` type before the widening. */
  function RawDimensions(data: seq<byte>): (raw: bv64)
    requires |data| >= 10
    ensures raw == (data[6] as bv64) | (0 as bv8 as bv64) | (0 as bv8 as bv64) | ((data[9] as bv64) << 24)
  {
    (data[6] as bv64) | (ShiftByte(data[7], 8) as bv64)
    | (ShiftByte(data[8], 16) as bv64) | ((data[9] as bv64) << 24)
  }

  /** Bit-level facts behind `ExtractGeometry`. */
  lemma GeometryOfRaw(raw: bv64, b6: byte, b9: byte)
    requires raw == (b6 as bv64) | (0 as bv8 as bv64) | (0 as bv8 as bv64) | ((b9 as bv64) << 24)
    ensures (raw & 0x3FFF) as int == b6 as int
    ensures ((raw >> 16) & 0x3FFF) as int == (b9 as int % 64) * 256
  {
    assert raw & 0x3FFF == b6 as bv64;
    assert (raw >> 16) & 0x3FFF == ((b9 & 0x3F) as bv64) << 8;
    assert (b9 & 0x3F) as int == b9 as int % 64;
    assert (((b9 & 0x3F) as bv64) << 8) as int == ((b9 & 0x3F) as int) * 256;
  }

  /** Width depends on byte 6 only and height on byte 9 only. */
  lemma GeometryDependsOnBytes6And9(d1: seq<byte>, d2: seq<byte>)
    requires |d1| >= 10 && |d2| >= 10
    ensures d1[6] == d2[6] <==> ExtractGeometry(d1).width == ExtractGeometry(d2).width
    ensures d1[9] == d2[9] ==> ExtractGeometry(d1).height == ExtractGeometry(d2).height
  {
  }

  /** The layout of section 9.1 of RFC 6386: after the three-byte frame tag
      and the start code come two little-endian 16-bit fields at offsets 6
      and 8, each a 14-bit dimension under a 2-bit scale. */
  function RfcGeometry(data: seq<byte>): (g: Geometry)
    requires |data| >= 10
    ensures g.width < DimensionLimit && g.height < DimensionLimit
  {
    Geometry((data[7] as int % 64) * 256 + data[6] as int,
             (data[9] as int % 64) * 256 + data[8] as int)
  }

  /** The first ten bytes of a VP8 keyframe of the given dimensions, scale 0. */
  function KeyframeHeader(w: nat, h: nat): (d: seq<byte>)
    requires w < DimensionLimit && h < DimensionLimit
    ensures |d| == 10 && IsKeyframe(d)
  {
    [0x10, 0x00, 0x00, 0x9d, 0x01, 0x2a,
     ByteOf(w % 256), ByteOf(w / 256), ByteOf(h % 256), ByteOf(h / 256)]
  }

  /** The RFC layout reads back the dimensions a keyframe header encodes. */
  lemma RfcGeometryRoundTrip(w: nat, h: nat)
    requires w < DimensionLimit && h < DimensionLimit
    ensures RfcGeometry(KeyframeHeader(w, h)) == Geometry(w, h)
  {
    var d := KeyframeHeader(w, h);
    assert d[6] as int == w % 256 && d[7] as int == w / 256;
    assert d[8] as int == h % 256 && d[9] as int == h / 256;
    assert w / 256 < 64 && h / 256 < 64;
  }

  /** What the as-written read makes of any keyframe header: the low byte of
      the width, and the height with its low byte cleared. */
  lemma ExtractGeometryOfHeader(w: nat, h: nat)
    requires w < DimensionLimit && h < DimensionLimit
    ensures ExtractGeometry(KeyframeHeader(w, h)) == Geometry(w % 256, h / 256 * 256)
  {
    var d := KeyframeHeader(w, h);
    assert d[6] as int == w % 256 && d[9] as int == h / 256;
    assert h / 256 < 64;
  }

  /** Concrete case: a 640x480 keyframe is read as 128x256. */
  lemma GeometryMisreads640x480()
    ensures ExtractGeometry(KeyframeHeader(640, 480)) == Geometry(128, 256)
    ensures RfcGeometry(KeyframeHeader(640, 480)) == Geometry(640, 480)
  {
    ExtractGeometryOfHeader(640, 480);
    RfcGeometryRoundTrip(640, 480);
  }

  /** The as-written read agrees with the RFC layout exactly when the width's
      high bits and the height's low byte are zero. */
  lemma ExtractAgreesWithRfcIff(data: seq<byte>)
    requires |data| >= 10
    ensures ExtractGeometry(data).width == RfcGeometry(data).width <==> data[7] as int % 64 == 0
    ensures ExtractGeometry(data).height == RfcGeometry(data).height <==> data[8] == 0
  {
  }

  // ---------------------------------------------------------------------
  // Pushing samples
  // ---------------------------------------------------------------------

  /** The first keyframe's effect: the geometry is taken from the bitstream,
      the pipe writer and the file's video and audio writers are created,
      and the keyframe is remembered. */
  function InitWriters(p: Parser, g: Geometry): (r: Parser)
    ensures r.isSeenKeyframe && r.width == g.width && r.height == g.height
    ensures r.pipeWriter == r.fileWriter == Some(Writer(VideoEntry(g), []))
    ensures r.audioWriter == Some(Writer(AudioEntry(), []))
    ensures r.(width := p.width, height := p.height, isSeenKeyframe := p.isSeenKeyframe,
               pipeWriter := p.pipeWriter, fileWriter := p.fileWriter,
               audioWriter := p.audioWriter) == p
  {
    p.(width := g.width, height := g.height,
       pipeWriter := Some(Writer(VideoEntry(g), [])),
       fileWriter := Some(Writer(VideoEntry(g), [])),
       audioWriter := Some(Writer(AudioEntry(), [])),
       isSeenKeyframe := true)
  }

  /** Appends one block to a writer. */
  function Append(w: Writer, b: Block): (r: Writer)
    ensures r.track == w.track && r.blocks == w.blocks + [b]
  {
    w.(blocks := w.blocks + [b])
  }

  /** The keyframe branch of `PushVideo`'s loop: taken only for a keyframe
      while none has been seen. */
  function MaybeInit(p: Parser, s: Sample): (r: Parser)
    requires ReadableSample(p.isSeenKeyframe, s)
    ensures p.isSeenKeyframe || !IsKeyframe(s.data) ==> r == p
    ensures !p.isSeenKeyframe && IsKeyframe(s.data) ==> r == InitWriters(p, ExtractGeometry(s.data))
  {
    if IsKeyframe(s.data) && !p.isSeenKeyframe then InitWriters(p, ExtractGeometry(s.data)) else p
  }

  /** The pipe branch: advance the pipe counter, then write. */
  function WritePipe(p: Parser, key: bool, s: Sample): (r: Parser)
    ensures p.pipeWriter.None? ==> r == p
    ensures r.(videoTimestamp := p.videoTimestamp, pipeWriter := p.pipeWriter) == p
  {
    if p.pipeWriter.Some? then
      var ts := AddU32(p.videoTimestamp, s.samples);
      p.(videoTimestamp := ts,
         pipeWriter := Some(Append(p.pipeWriter.value, Block(key, ts / VideoClockDivisor, s.data))))
    else p
  }

  /** The file branch: advance the file counter, then write. */
  function WriteFile(p: Parser, key: bool, s: Sample): (r: Parser)
    ensures p.fileWriter.None? ==> r == p
    ensures r.(fileTimestamp := p.fileTimestamp, fileWriter := p.fileWriter) == p
  {
    if p.fileWriter.Some? then
      var ts := AddU32(p.fileTimestamp, s.samples);
      p.(fileTimestamp := ts,
         fileWriter := Some(Append(p.fileWriter.value, Block(key, ts / VideoClockDivisor, s.data))))
    else p
  }

  /** The body of `PushVideo`'s loop for one sample. */
  function VideoSampleStep(p: Parser, s: Sample): (r: Parser)
    requires ReadableSample(p.isSeenKeyframe, s)
    ensures r.isSeenKeyframe == (p.isSeenKeyframe || IsKeyframe(s.data))
    ensures r.isClosed == p.isClosed && r.outputPipe == p.outputPipe && r.effects == p.effects
    ensures r.hasFFmpeg == p.hasFFmpeg && r.audioTimestamp == p.audioTimestamp
    ensures p.isSeenKeyframe || !IsKeyframe(s.data) ==>
              r.isSeenKeyframe == p.isSeenKeyframe && r.width == p.width && r.height == p.height
    ensures p.isSeenKeyframe ==> r.audioWriter == p.audioWriter
  {
    var key := IsKeyframe(s.data);
    WriteFile(WritePipe(MaybeInit(p, s), key, s), key, s)
  }

  /** `PushVideo`: every sample the video builder releases, in order. Afterwards
      a keyframe has been seen exactly when one had been before or `ss` holds
      one; the closed flag, the ffmpeg state, the effect trace and the audio
      counter never change, nor the audio writer once a keyframe was seen. */
  function PushVideo(p: Parser, ss: seq<Sample>): (r: Parser)
    requires ReadableVideo(p.isSeenKeyframe, ss)
    ensures r.isSeenKeyframe == SeenAfter(p.isSeenKeyframe, ss)
    ensures r.isClosed == p.isClosed && r.hasFFmpeg == p.hasFFmpeg
    ensures r.outputPipe == p.outputPipe && r.effects == p.effects
    ensures r.audioTimestamp == p.audioTimestamp
    ensures p.isSeenKeyframe ==> r.audioWriter == p.audioWriter
    decreases |ss|
  {
    if ss == [] then p else PushVideo(VideoSampleStep(p, ss[0]), ss[1..])
  }

  /** The body of `PushAudio`'s loop for one sample: written only while the
      audio writer exists, always as a keyframe. */
  function AudioSampleStep(p: Parser, s: Sample): (r: Parser)
    ensures p.audioWriter.None? ==> r == p
    ensures r.(audioTimestamp := p.audioTimestamp, audioWriter := p.audioWriter) == p
  {
    if p.audioWriter.Some? then
      var ts := AddU32(p.audioTimestamp, s.samples);
      p.(audioTimestamp := ts,
         audioWriter := Some(Append(p.audioWriter.value, Block(true, ts / AudioClockDivisor, s.data))))
    else p
  }

  /** `PushAudio`: every sample the audio builder releases, in order. Only the
      audio writer and counter change, and only while the writer exists. */
  function PushAudio(p: Parser, ss: seq<Sample>): (r: Parser)
    ensures p.audioWriter.None? ==> r == p
    ensures p.audioWriter.Some? ==> r.audioWriter.Some? && r.audioWriter.value.track == p.audioWriter.value.track
    ensures r.(audioTimestamp := p.audioTimestamp, audioWriter := p.audioWriter) == p
    decreases |ss|
  {
    if ss == [] then p else PushAudio(AudioSampleStep(p, ss[0]), ss[1..])
  }

  // ---------------------------------------------------------------------
  // Closing
  // ---------------------------------------------------------------------

  /** Closes the pipe writer, if open, handing its contents over. */
  function ClosePipe(p: Parser): (r: Parser)
    ensures r.pipeWriter.None?
    ensures p.pipeWriter.None? ==> r == p
    ensures p.pipeWriter.Some? ==> r.effects == p.effects + [WriterClosed(PipeVideo, p.pipeWriter.value)]
    ensures r.(pipeWriter := p.pipeWriter, effects := p.effects) == p
  {
    if p.pipeWriter.Some? then
      p.(pipeWriter := None, effects := p.effects + [WriterClosed(PipeVideo, p.pipeWriter.value)])
    else p
  }

  /** Closes the file's video writer, then its audio writer. */
  function CloseFile(p: Parser): (r: Parser)
    ensures r.fileWriter.None? && r.audioWriter.None?
    ensures p.fileWriter.None? && p.audioWriter.None? ==> r == p
    ensures r.(fileWriter := p.fileWriter, audioWriter := p.audioWriter, effects := p.effects) == p
  {
    var p1 :=
      if p.fileWriter.Some? then
        p.(fileWriter := None, effects := p.effects + [WriterClosed(FileVideo, p.fileWriter.value)])
      else p;
    if p1.audioWriter.Some? then
      p1.(audioWriter := None, effects := p1.effects + [WriterClosed(FileAudio, p1.audioWriter.value)])
    else p1
  }

  /** Calls `Wait` on ffmpeg. The process handle is never cleared, so every call
      calls `Wait`; from the second call on Go returns an error at once, which
      is only logged. */
  function CloseFFmpeg(p: Parser): (r: Parser)
    ensures r.effects == p.effects + (if p.hasFFmpeg then [FFmpegWaited] else [])
    ensures r.(effects := p.effects) == p
  {
    if p.hasFFmpeg then p.(effects := p.effects + [FFmpegWaited]) else p
  }

  /** `Close`: pipe writer, then file writers, then the `Wait` call on ffmpeg; then the
      parser is marked closed. */
  function Close(p: Parser): (r: Parser)
    ensures r.isClosed
    ensures r.pipeWriter.None? && r.fileWriter.None? && r.audioWriter.None?
    ensures |r.effects| >= |p.effects| && r.effects[..|p.effects|] == p.effects
    ensures r.(isClosed := p.isClosed, pipeWriter := p.pipeWriter, fileWriter := p.fileWriter,
               audioWriter := p.audioWriter, effects := p.effects) == p
  {
    CloseFFmpeg(CloseFile(ClosePipe(p))).(isClosed := true)
  }

  /** On an open parser, `Close` hands each writer's full contents over in the
      fixed order pipe, file video, file audio, and then calls `Wait` on ffmpeg. */
  lemma CloseOrder(p: Parser)
    requires Inv(p) && p.pipeWriter.Some? && p.hasFFmpeg
    ensures Close(p).effects == p.effects + [WriterClosed(PipeVideo, p.pipeWriter.value),
                                             WriterClosed(FileVideo, p.fileWriter.value),
                                             WriterClosed(FileAudio, p.audioWriter.value),
                                             FFmpegWaited]
  {
  }

  /** A second `Close` closes no writer again: it only calls `Wait` once more. */
  lemma CloseIdempotent(p: Parser)
    ensures var once := Close(p);
            Close(once) == once.(effects := once.effects + (if p.hasFFmpeg then [FFmpegWaited] else []))
  {
  }

  // ---------------------------------------------------------------------
  // Reading decoded frames
  // ---------------------------------------------------------------------

  /** `PopImage(size)`: a zeroed buffer of `size` bytes filled by `io.ReadFull`
      from ffmpeg's output. When the stream ends early, the buffer keeps what
      was read followed by zeros, and it is still returned. */
  method PopImage(p: Parser, size: int) returns (p': Parser, buf: seq<byte>)
    requires 0 <= size
    ensures |buf| == size
    ensures size <= |p.outputPipe| ==> buf == p.outputPipe[..size] && p'.outputPipe == p.outputPipe[size..]
    ensures |p.outputPipe| < size ==>
              buf == p.outputPipe + Zeros(size - |p.outputPipe|) && p'.outputPipe == []
    ensures p' == p.(outputPipe := p'.outputPipe)
  {
    var out := p.outputPipe;
    buf := Zeros(size);
    var n := 0;
    while n < size && n < |out|
      invariant 0 <= n <= size && n <= |out|
      invariant |buf| == size
      invariant buf[..n] == out[..n]
      invariant forall i :: n <= i < size ==> buf[i] == 0
    {
      buf := buf[n := out[n]];
      n := n + 1;
    }
    if n < size {
      assert buf == out + Zeros(size - |out|) by {
        assert forall i :: 0 <= i < size ==> buf[i] == (out + Zeros(size - |out|))[i] by {
          forall i | 0 <= i < size ensures buf[i] == (out + Zeros(size - |out|))[i] {
            if i < n {
              assert buf[i] == buf[..n][i];
            }
          }
        }
      }
    } else {
      assert buf == buf[..n];
    }
    p' := p.(outputPipe := out[n..]);
  }

  // ---------------------------------------------------------------------
  // Invariant and properties
  // ---------------------------------------------------------------------

  /** What every reachable parser satisfies: the three writers exist together,
      the pipe and file video writers hold identical tracks and blocks, their
      counters agree, the writers carry the parser's geometry, and nothing has
      been counted before the first keyframe. */
  predicate Inv(p: Parser) {
    && p.pipeWriter == p.fileWriter
    && p.pipeWriter.Some? == p.audioWriter.Some?
    && p.videoTimestamp == p.fileTimestamp
    && (p.pipeWriter.Some? ==>
          && p.isSeenKeyframe
          && p.pipeWriter.value.track == VideoEntry(Geometry(p.width, p.height))
          && p.audioWriter.value.track == AudioEntry())
    && (!p.isSeenKeyframe ==> p.videoTimestamp == 0 && p.audioTimestamp == 0)
    && (p.isSeenKeyframe ==> p.width < DimensionLimit && p.height < DimensionLimit)
  }

  lemma NewParserInv(w: int, h: int, out: seq<byte>)
    requires IsInt(w) && IsInt(h)
    ensures Inv(NewParser(w, h, out))
  {
  }

  /** One video sample on a parser whose writers are open: both video writers
      get the same block, stamped with the advanced counter over 90. */
  lemma VideoStepOpen(p: Parser, s: Sample)
    requires Inv(p) && p.pipeWriter.Some? && ReadableSample(p.isSeenKeyframe, s)
    ensures var ts := AddU32(p.videoTimestamp, s.samples);
            var w := Some(Append(p.pipeWriter.value, Block(IsKeyframe(s.data), ts / VideoClockDivisor, s.data)));
            VideoSampleStep(p, s) == p.(videoTimestamp := ts, fileTimestamp := ts, pipeWriter := w, fileWriter := w)
  {
    assert MaybeInit(p, s) == p;
  }

  lemma VideoSampleStepInv(p: Parser, s: Sample)
    requires Inv(p) && ReadableSample(p.isSeenKeyframe, s)
    ensures Inv(VideoSampleStep(p, s))
  {
    var p1 := MaybeInit(p, s);
    if p1.pipeWriter.Some? {
      assert Inv(p1);
      VideoStepOpen(p1, s);
    } else {
      assert VideoSampleStep(p, s) == p1;
    }
  }

  lemma {:induction false} PushVideoInv(p: Parser, ss: seq<Sample>)
    requires Inv(p) && ReadableVideo(p.isSeenKeyframe, ss)
    ensures Inv(PushVideo(p, ss))
    decreases |ss|
  {
    if ss != [] {
      VideoSampleStepInv(p, ss[0]);
      PushVideoInv(VideoSampleStep(p, ss[0]), ss[1..]);
    }
  }

  lemma AudioSampleStepInv(p: Parser, s: Sample)
    requires Inv(p)
    ensures Inv(AudioSampleStep(p, s))
  {
  }

  lemma {:induction false} PushAudioInv(p: Parser, ss: seq<Sample>)
    requires Inv(p)
    ensures Inv(PushAudio(p, ss))
    decreases |ss|
  {
    if ss != [] {
      AudioSampleStepInv(p, ss[0]);
      PushAudioInv(AudioSampleStep(p, ss[0]), ss[1..]);
    }
  }

  lemma CloseInv(p: Parser)
    requires Inv(p)
    ensures Inv(Close(p))
  {
  }

  /** Before the first keyframe, pushing non-keyframes changes nothing: no
      writer exists, so nothing is written and no counter moves. */
  lemma {:induction false} NothingBeforeFirstKeyframe(p: Parser, ss: seq<Sample>)
    requires Inv(p) && !p.isSeenKeyframe && ReadableVideo(false, ss)
    requires forall i :: 0 <= i < |ss| ==> !IsKeyframe(ss[i].data)
    ensures PushVideo(p, ss) == p
    decreases |ss|
  {
    if ss != [] {
      assert MaybeInit(p, ss[0]) == p;
      assert VideoSampleStep(p, ss[0]) == p;
      NothingBeforeFirstKeyframe(p, ss[1..]);
    }
  }

  /** While the audio writer is nil, audio samples are dropped. */
  lemma {:induction false} AudioDroppedWithoutWriter(p: Parser, ss: seq<Sample>)
    requires p.audioWriter.None?
    ensures PushAudio(p, ss) == p
    decreases |ss|
  {
    if ss != [] {
      AudioDroppedWithoutWriter(p, ss[1..]);
    }
  }

  /** Once a keyframe has been seen, pushing video never changes the geometry. */
  lemma {:induction false} GeometryFrozen(p: Parser, ss: seq<Sample>)
    requires p.isSeenKeyframe && ReadableVideo(true, ss)
    ensures PushVideo(p, ss).isSeenKeyframe
    ensures PushVideo(p, ss).width == p.width && PushVideo(p, ss).height == p.height
    decreases |ss|
  {
    if ss != [] {
      GeometryFrozen(VideoSampleStep(p, ss[0]), ss[1..]);
    }
  }

  /** Pushing a sequence whose first keyframe is at index k, on a parser that
      has not seen one, leaves the geometry read from that keyframe. */
  lemma {:induction false} FirstKeyframeSetsGeometry(p: Parser, ss: seq<Sample>, k: nat)
    requires !p.isSeenKeyframe && ReadableVideo(false, ss)
    requires k < |ss| && IsKeyframe(ss[k].data) && |ss[k].data| >= 10
    requires forall j :: 0 <= j < k ==> !IsKeyframe(ss[j].data)
    ensures PushVideo(p, ss).isSeenKeyframe
    ensures Geometry(PushVideo(p, ss).width, PushVideo(p, ss).height) == ExtractGeometry(ss[k].data)
    decreases k
  {
    var p1 := VideoSampleStep(p, ss[0]);
    if k == 0 {
      assert MaybeInit(p, ss[0]) == InitWriters(p, ExtractGeometry(ss[0].data));
      assert p1.isSeenKeyframe && Geometry(p1.width, p1.height) == ExtractGeometry(ss[0].data);
      GeometryFrozen(p1, ss[1..]);
    } else {
      assert !IsKeyframe(ss[0].data);
      assert ss[1..][k - 1] == ss[k];
      FirstKeyframeSetsGeometry(p1, ss[1..], k - 1);
    }
  }

  /** The wrapping `uint32` sum of the durations of a sample sequence. */
  function Total(ss: seq<Sample>): uint32
    decreases |ss|
  {
    if ss == [] then 0 else AddU32(ss[0].samples, Total(ss[1..]))
  }

  lemma AddU32Assoc(a: uint32, b: uint32, c: uint32)
    ensures AddU32(AddU32(a, b), c) == AddU32(a, AddU32(b, c))
  {
  }

  lemma TotalPrefixStep(ss: seq<Sample>, i: nat)
    requires i < |ss|
    ensures Total(ss[..i + 1]) == AddU32(ss[0].samples, Total(ss[1..][..i]))
  {
    var pre := ss[..i + 1];
    assert pre != [] && pre[0] == ss[0];
    assert pre[1..] == ss[1..][..i];
  }

  /** The counter value after `c` has been advanced by the first i+1 samples. */
  function RunningCount(c: uint32, ss: seq<Sample>, i: nat): uint32
    requires i < |ss|
  {
    AddU32(c, Total(ss[..i + 1]))
  }

  lemma RunningCountStep(c: uint32, ss: seq<Sample>, i: nat)
    requires 0 < i < |ss|
    ensures RunningCount(AddU32(c, ss[0].samples), ss[1..], i - 1) == RunningCount(c, ss, i)
  {
    TotalPrefixStep(ss, i);
    AddU32Assoc(c, ss[0].samples, Total(ss[1..][..i]));
  }

  lemma RunningCountFirst(c: uint32, ss: seq<Sample>)
    requires 0 < |ss|
    ensures RunningCount(c, ss, 0) == AddU32(c, ss[0].samples)
  {
    TotalPrefixStep(ss, 0);
  }

  /** `after` is `before` followed by one video block per sample: its keyframe
      flag, the running counter including that sample divided by 90, its data. */
  predicate VideoWrites(before: seq<Block>, after: seq<Block>, c: uint32, ss: seq<Sample>) {
    && |after| == |before| + |ss|
    && after[..|before|] == before
    && forall i :: 0 <= i < |ss| ==>
         after[|before| + i] == Block(IsKeyframe(ss[i].data), RunningCount(c, ss, i) / VideoClockDivisor, ss[i].data)
  }

  /** `after` is `before` followed by one audio block per sample: always a
      keyframe, stamped with the running counter including it divided by 48. */
  predicate AudioWrites(before: seq<Block>, after: seq<Block>, c: uint32, ss: seq<Sample>) {
    && |after| == |before| + |ss|
    && after[..|before|] == before
    && forall i :: 0 <= i < |ss| ==>
         after[|before| + i] == Block(true, RunningCount(c, ss, i) / AudioClockDivisor, ss[i].data)
  }

  /** One block written ahead of the rest extends a `VideoWrites` trace. */
  lemma VideoWritesCons(before: seq<Block>, after: seq<Block>, c: uint32, ss: seq<Sample>)
    requires |ss| > 0
    requires var c1 := AddU32(c, ss[0].samples);
             VideoWrites(before + [Block(IsKeyframe(ss[0].data), c1 / VideoClockDivisor, ss[0].data)], after, c1, ss[1..])
    ensures VideoWrites(before, after, c, ss)
  {
    var c1 := AddU32(c, ss[0].samples);
    var mid := before + [Block(IsKeyframe(ss[0].data), c1 / VideoClockDivisor, ss[0].data)];
    var rest := ss[1..];
    assert after[..|before|] == before by {
      assert after[..|before|] == after[..|mid|][..|before|];
    }
    forall i | 0 <= i < |ss|
      ensures after[|before| + i] == Block(IsKeyframe(ss[i].data), RunningCount(c, ss, i) / VideoClockDivisor, ss[i].data)
    {
      if i == 0 {
        RunningCountFirst(c, ss);
        assert after[|before|] == after[..|mid|][|before|];
      } else {
        RunningCountStep(c, ss, i);
        assert rest[i - 1] == ss[i];
        assert after[|before| + i] == after[|mid| + (i - 1)];
      }
    }
  }

  /** One block written ahead of the rest extends an `AudioWrites` trace. */
  lemma AudioWritesCons(before: seq<Block>, after: seq<Block>, c: uint32, ss: seq<Sample>)
    requires |ss| > 0
    requires var c1 := AddU32(c, ss[0].samples);
             AudioWrites(before + [Block(true, c1 / AudioClockDivisor, ss[0].data)], after, c1, ss[1..])
    ensures AudioWrites(before, after, c, ss)
  {
    var c1 := AddU32(c, ss[0].samples);
    var mid := before + [Block(true, c1 / AudioClockDivisor, ss[0].data)];
    var rest := ss[1..];
    assert after[..|before|] == before by {
      assert after[..|before|] == after[..|mid|][..|before|];
    }
    forall i | 0 <= i < |ss|
      ensures after[|before| + i] == Block(true, RunningCount(c, ss, i) / AudioClockDivisor, ss[i].data)
    {
      if i == 0 {
        RunningCountFirst(c, ss);
        assert after[|before|] == after[..|mid|][|before|];
      } else {
        RunningCountStep(c, ss, i);
        assert rest[i - 1] == ss[i];
        assert after[|before| + i] == after[|mid| + (i - 1)];
      }
    }
  }

  /** With the writers open, `PushVideo` writes every sample to both the pipe
      and the file, stamped from the running 32-bit sum of durations. */
  lemma {:induction false} PushVideoWrites(p: Parser, ss: seq<Sample>)
    requires Inv(p) && p.pipeWriter.Some? && ReadableVideo(p.isSeenKeyframe, ss)
    ensures var r := PushVideo(p, ss);
            && Inv(r) && r.pipeWriter.Some? && r.fileWriter == r.pipeWriter
            && r.pipeWriter.value.track == p.pipeWriter.value.track
            && r.videoTimestamp == AddU32(p.videoTimestamp, Total(ss))
            && VideoWrites(p.pipeWriter.value.blocks, r.pipeWriter.value.blocks, p.videoTimestamp, ss)
    decreases |ss|
  {
    var before := p.pipeWriter.value.blocks;
    if ss == [] {
      assert before[..|before|] == before;
    } else {
      var p1 := VideoSampleStep(p, ss[0]);
      VideoStepOpen(p, ss[0]);
      VideoSampleStepInv(p, ss[0]);
      var rest := ss[1..];
      PushVideoWrites(p1, rest);
      AddU32Assoc(p.videoTimestamp, ss[0].samples, Total(rest));
      VideoWritesCons(before, PushVideo(p1, rest).pipeWriter.value.blocks, p.videoTimestamp, ss);
    }
  }

  /** With the audio writer open, `PushAudio` writes every sample as a
      keyframe stamped from the running 32-bit sum of durations over 48, and
      touches nothing but the audio writer and counter. */
  lemma {:induction false} PushAudioWrites(p: Parser, ss: seq<Sample>)
    requires p.audioWriter.Some?
    ensures var r := PushAudio(p, ss);
            && r.audioWriter.Some?
            && r.audioWriter.value.track == p.audioWriter.value.track
            && r.audioTimestamp == AddU32(p.audioTimestamp, Total(ss))
            && AudioWrites(p.audioWriter.value.blocks, r.audioWriter.value.blocks, p.audioTimestamp, ss)
            && r.(audioTimestamp := p.audioTimestamp, audioWriter := p.audioWriter) == p
    decreases |ss|
  {
    var before := p.audioWriter.value.blocks;
    if ss == [] {
      assert before[..|before|] == before;
    } else {
      var p1 := AudioSampleStep(p, ss[0]);
      var rest := ss[1..];
      PushAudioWrites(p1, rest);
      AddU32Assoc(p.audioTimestamp, ss[0].samples, Total(rest));
      AudioWritesCons(before, PushAudio(p1, rest).audioWriter.value.blocks, p.audioTimestamp, ss);
    }
  }

  /** `PushVideo` leaves the closed flag, the ffmpeg state, the effect trace,
      the audio counter and, once a keyframe has been seen, the audio writer
      as they were. */
  lemma {:induction false} PushVideoFrame(p: Parser, ss: seq<Sample>)
    requires ReadableVideo(p.isSeenKeyframe, ss)
    ensures var r := PushVideo(p, ss);
            && r.isSeenKeyframe == SeenAfter(p.isSeenKeyframe, ss)
            && r.isClosed == p.isClosed && r.hasFFmpeg == p.hasFFmpeg
            && r.outputPipe == p.outputPipe && r.effects == p.effects
            && r.audioTimestamp == p.audioTimestamp
            && (p.isSeenKeyframe ==> r.audioWriter == p.audioWriter)
    decreases |ss|
  {
    if ss != [] {
      PushVideoFrame(VideoSampleStep(p, ss[0]), ss[1..]);
    }
  }

  /** `PushAudio` touches nothing but the audio writer and the audio counter. */
  lemma PushAudioFrame(p: Parser, ss: seq<Sample>)
    ensures PushAudio(p, ss).(audioTimestamp := p.audioTimestamp, audioWriter := p.audioWriter) == p
  {
    if p.audioWriter.Some? {
      PushAudioWrites(p, ss);
    } else {
      AudioDroppedWithoutWriter(p, ss);
    }
  }

  /** The sample that opens the writers is itself written: a parser that has
      not seen a keyframe takes the first one into fresh pipe and file
      writers as their first block, stamped with its own duration over 90. */
  lemma FirstKeyframeWritten(p: Parser, s: Sample)
    requires Inv(p) && !p.isSeenKeyframe && IsKeyframe(s.data) && |s.data| >= 10
    ensures var r := VideoSampleStep(p, s);
            var ts := AddU32(0, s.samples);
            var w := Some(Writer(VideoEntry(ExtractGeometry(s.data)), [Block(true, ts / VideoClockDivisor, s.data)]));
            && r.pipeWriter == w && r.fileWriter == w
            && r.videoTimestamp == ts && r.fileTimestamp == ts
            && r.audioWriter == Some(Writer(AudioEntry(), []))
  {
    var g := ExtractGeometry(s.data);
    var ts := AddU32(0, s.samples);
    var b := Block(true, ts / VideoClockDivisor, s.data);
    var p1 := MaybeInit(p, s);
    assert p1 == InitWriters(p, g);
    assert p1.videoTimestamp == 0 && p1.fileTimestamp == 0;
    var p2 := WritePipe(p1, true, s);
    assert p2.pipeWriter == Some(Writer(VideoEntry(g), [] + [b]));
    var p3 := WriteFile(p2, true, s);
    assert p3.fileWriter == Some(Writer(VideoEntry(g), [] + [b]));
    assert [] + [b] == [b];
    assert VideoSampleStep(p, s) == p3;
  }

  /** Pushing `a` then `b` is pushing `a + b`. */
  lemma {:induction false} PushVideoAppend(p: Parser, a: seq<Sample>, b: seq<Sample>)
    requires ReadableVideo(p.isSeenKeyframe, a)
    requires ReadableVideo(PushVideo(p, a).isSeenKeyframe, b)
    ensures ReadableVideo(p.isSeenKeyframe, a + b)
    ensures PushVideo(p, a + b) == PushVideo(PushVideo(p, a), b)
    decreases |a|
  {
    if a == [] {
      assert a + b == b;
    } else {
      var p1 := VideoSampleStep(p, a[0]);
      assert (a + b)[0] == a[0];
      assert (a + b)[1..] == a[1..] + b;
      PushVideoAppend(p1, a[1..], b);
    }
  }

  /** From a parser that has seen no keyframe, pushing a sequence whose first
      keyframe is at index k writes nothing for the samples before it and
      then one block per sample from the keyframe on, to both the pipe and
      the file, with the counters starting from 0. The writers carry the
      keyframe's geometry, and the audio writer is open and empty. */
  lemma {:induction false} PushVideoFromFirstKeyframe(p: Parser, ss: seq<Sample>, k: nat)
    requires Inv(p) && !p.isSeenKeyframe && ReadableVideo(false, ss)
    requires k < |ss| && IsKeyframe(ss[k].data) && |ss[k].data| >= 10
    requires forall j :: 0 <= j < k ==> !IsKeyframe(ss[j].data)
    ensures var r := PushVideo(p, ss);
            && r.pipeWriter.Some? && r.fileWriter == r.pipeWriter
            && r.pipeWriter.value.track == VideoEntry(ExtractGeometry(ss[k].data))
            && VideoWrites([], r.pipeWriter.value.blocks, 0, ss[k..])
            && r.audioWriter == Some(Writer(AudioEntry(), []))
    decreases k
  {
    var p1 := VideoSampleStep(p, ss[0]);
    var rest := ss[1..];
    if k == 0 {
      FirstKeyframeWritten(p, ss[0]);
      VideoSampleStepInv(p, ss[0]);
      PushVideoWrites(p1, rest);
      PushVideoFrame(p1, rest);
      var after := PushVideo(p1, rest).pipeWriter.value.blocks;
      var c1 := AddU32(0, ss[0].samples);
      assert [] + [Block(IsKeyframe(ss[0].data), c1 / VideoClockDivisor, ss[0].data)] == p1.pipeWriter.value.blocks;
      VideoWritesCons([], after, 0, ss);
      assert ss[0..] == ss;
    } else {
      assert MaybeInit(p, ss[0]) == p;
      assert p1 == p;
      assert rest[k - 1] == ss[k] && rest[k - 1..] == ss[k..];
      PushVideoFromFirstKeyframe(p, rest, k - 1);
    }
  }
}

=== FILE: signalserver.dfy ===
/** The signal relay of signalserver/handle.go: the handshake status table,
    the per-message step of the client-facing read loop, and the guarded
    write to the worker-facing connection.

    The model follows the code as written. Beside it stand two corrected
    definitions (exported-field decoding and a guard that consults the current
    status), used only to state what the design intended and how the code
    differs from it. */
module SignalServer {
  import opened Base

  // Handshake statuses, numbered by iota in declaration order.
  const SignalStatusStart: int := 0
  const SignalStatusSdp: int := 1
  const SignalStatusCandidate: int := 2

  /** A status value that one of the three constants names. */
  predicate ValidStatus(s: int) {
    SignalStatusStart <= s <= SignalStatusCandidate
  }

  /** The Go struct `Message`; both fields are unexported. */
  datatype Message = Message(key: string, value: string)

  /** The members of a decoded JSON object whose values are strings. */
  type JsonObject = map<string, string>

  /** One frame read from the client connection: its raw bytes, and the JSON
      object they parse to. `None` stands for exactly the frames on which
      `json.Unmarshal` into a struct returns an error: malformed text, a value
      that is neither an object nor `null`, or the nil slice of a failed read.
      The literal `null` decodes without error and sets nothing, so it is the
      empty object `map[]`. */
  datatype Frame = Frame(raw: seq<byte>, json: Option<JsonObject>)

  /** The relay's per-session state. The worker connection is modelled by
      the list of payloads written to it; the client connection by nothing. */
  datatype SignalHandler = SignalHandler(
    status: int,
    worker: string,
    isUpClosed: bool,
    isDownClosed: bool,
    downstream: seq<seq<byte>>)

  /** A new session: status Start, client leg open, worker leg not yet dialled. */
  function NewSignalHandler(): (sh: SignalHandler)
    ensures sh.status == SignalStatusStart
    ensures !sh.isUpClosed && sh.isDownClosed
    ensures sh.downstream == []
  {
    SignalHandler(SignalStatusStart, "", false, true, [])
  }

  /** The state change of a successful dial in `Listen`: the worker leg opens. */
  function DownstreamDialed(sh: SignalHandler): (r: SignalHandler)
    ensures !r.isDownClosed
    ensures r.(isDownClosed := sh.isDownClosed) == sh
  {
    sh.(isDownClosed := false)
  }

  /** The state change of `Listen`'s deferred close: the worker leg closes. */
  function DownstreamClosed(sh: SignalHandler): (r: SignalHandler)
    ensures r.isDownClosed
    ensures r.(isDownClosed := sh.isDownClosed) == sh
  {
    sh.(isDownClosed := true)
  }

  /** The transition table: `from` must have an entry whose successor is `to`. */
  function CheckStatus(from: int, to: int): (ok: bool)
    ensures ok <==>
      || (from == SignalStatusStart && to == SignalStatusSdp)
      || (from == SignalStatusSdp && to == SignalStatusCandidate)
      || (from == SignalStatusCandidate && to == SignalStatusCandidate)
    ensures ok ==> ValidStatus(from) && ValidStatus(to) && from <= to
  {
    var convert := map[SignalStatusStart := SignalStatusSdp,
                       SignalStatusSdp := SignalStatusCandidate,
                       SignalStatusCandidate := SignalStatusCandidate];
    from in convert && convert[from] == to
  }

  /** Each status has at most one accepted successor. */
  lemma CheckStatusSuccessorUnique(from: int, to1: int, to2: int)
    requires CheckStatus(from, to1) && CheckStatus(from, to2)
    ensures to1 == to2
  {
  }

  /** Each of the three statuses has an accepted successor; nothing else has one. */
  lemma CheckStatusSuccessorExists(from: int)
    ensures ValidStatus(from) <==> exists to :: CheckStatus(from, to)
  {
    if from == SignalStatusStart {
      assert CheckStatus(from, SignalStatusSdp);
    } else if ValidStatus(from) {
      assert CheckStatus(from, SignalStatusCandidate);
    }
  }

  /** Writes the payload to the worker leg when it is open; otherwise only logs. */
  function Send(sh: SignalHandler, payload: seq<byte>): (r: SignalHandler)
    ensures !sh.isDownClosed ==> r.downstream == sh.downstream + [payload]
    ensures sh.isDownClosed ==> r == sh
    ensures r.(downstream := sh.downstream) == sh
  {
    if !sh.isDownClosed then sh.(downstream := sh.downstream + [payload]) else sh
  }

  /** Before `Listen` has dialled the worker, a `Send` writes nothing. */
  lemma SendBeforeDial(payload: seq<byte>)
    ensures Send(NewSignalHandler(), payload) == NewSignalHandler()
  {
  }

  /** Once the worker has been dialled, a `Send` appends exactly its payload. */
  lemma SendAfterDial(sh: SignalHandler, payload: seq<byte>)
    ensures Send(DownstreamDialed(sh), payload).downstream == sh.downstream + [payload]
  {
  }

  /** Once `Listen` has closed the worker leg, a `Send` changes nothing. */
  lemma SendAfterClose(sh: SignalHandler, payload: seq<byte>)
    ensures Send(DownstreamClosed(sh), payload) == DownstreamClosed(sh)
  {
  }

  /** The switch on the decoded key in `Run`. Both guards pass constants to
      `CheckStatus`, so they always hold and the current status is never read. */
  function Route(sh: SignalHandler, key: string, payload: seq<byte>): (r: SignalHandler)
    ensures key == "sdp" ==> r.status == SignalStatusSdp
    ensures key == "candidate" ==> r.status == SignalStatusCandidate
    ensures key == "sdp" || key == "candidate" ==> r.downstream == Send(sh, payload).downstream
    ensures key != "sdp" && key != "candidate" ==> r == sh
    ensures r.(status := sh.status, downstream := sh.downstream) == sh
  {
    match key
    case "sdp" =>
      if CheckStatus(SignalStatusStart, SignalStatusSdp) then
        Send(sh.(status := SignalStatusSdp), payload)
      else
        sh
    case "candidate" =>
      if CheckStatus(SignalStatusSdp, SignalStatusCandidate)
         || CheckStatus(SignalStatusCandidate, SignalStatusCandidate) then
        Send(sh.(status := SignalStatusCandidate), payload)
      else
        sh
    case _ => sh
  }

  /** `json.Unmarshal(message, &msg)`. It returns an error exactly on the
      frames that do not decode; otherwise it fills only exported fields, and
      `Message` has none, so the target keeps whatever it held before. */
  function Unmarshal(prev: Message, json: Option<JsonObject>): (r: Option<Message>)
    ensures r.None? <==> json.None?
    ensures r.Some? ==> r.value == prev
  {
    match json
    case None => None
    case Some(_) => Some(prev)
  }

  /** One iteration of `Run`: decode into the reused `msg`, skip the frame if
      decoding fails, otherwise route on the key. Returns the new handler and
      the new contents of `msg`. */
  function Step(sh: SignalHandler, msg: Message, frame: Frame): (r: (SignalHandler, Message))
    ensures frame.json.None? ==> r == (sh, msg)
    ensures r.1 == msg
    ensures frame.json.Some? ==> r.0 == Route(sh, msg.key, frame.raw)
  {
    match Unmarshal(msg, frame.json)
    case None => (sh, msg)
    case Some(m) => (Route(sh, m.key, frame.raw), m)
  }

  /** `Run`'s loop over the frames read so far, in receipt order. Context
      cancellation only stops the loop, so it is covered by running a prefix.
      The loop only appends to the worker leg, only ever sets a routed status,
      and changes nothing else. */
  function RunLoop(sh: SignalHandler, msg: Message, frames: seq<Frame>): (r: SignalHandler)
    ensures |sh.downstream| <= |r.downstream| && r.downstream[..|sh.downstream|] == sh.downstream
    ensures r.status in {sh.status, SignalStatusSdp, SignalStatusCandidate}
    ensures r.(status := sh.status, downstream := sh.downstream) == sh
    decreases |frames|
  {
    if frames == [] then sh
    else
      var (sh', msg') := Step(sh, msg, frames[0]);
      RunLoop(sh', msg', frames[1..])
  }

  /** `Run`, which starts from the zero `Message{}`. Its key is never
      decoded into, so whatever the client sends, the handler is unchanged. */
  function Run(sh: SignalHandler, frames: seq<Frame>): (r: SignalHandler)
    ensures r == sh
  {
    RunLoopInert(sh, Message("", ""), frames);
    RunLoop(sh, Message("", ""), frames)
  }

  /** While the decode target holds neither routed key, no frame changes the
      handler: the status stays put and nothing reaches the worker leg. */
  lemma {:induction false} RunLoopInert(sh: SignalHandler, msg: Message, frames: seq<Frame>)
    requires msg.key != "sdp" && msg.key != "candidate"
    ensures RunLoop(sh, msg, frames) == sh
    decreases |frames|
  {
    if frames != [] {
      var (sh', msg') := Step(sh, msg, frames[0]);
      assert sh' == sh && msg' == msg;
      RunLoopInert(sh', msg', frames[1..]);
    }
  }

  /** As written, the relay forwards nothing and never leaves its status,
      whatever the client sends: the key is never decoded, so it stays "". */
  lemma RunNeverForwards(sh: SignalHandler, frames: seq<Frame>)
    ensures Run(sh, frames).status == sh.status
    ensures Run(sh, frames).downstream == sh.downstream
  {
    RunLoopInert(sh, Message("", ""), frames);
  }

  /** The JSON object a client sends for a message. */
  function Marshal(m: Message): JsonObject {
    map["key" := m.key, "value" := m.value]
  }

  /** Concrete case: a well-formed `{"key":"sdp",...}` frame on a fresh session
      with the worker leg open is not relayed, because the key is never decoded. */
  lemma SdpFrameNotRelayed(raw: seq<byte>, v: string)
    ensures var sh := DownstreamDialed(NewSignalHandler());
            Run(sh, [Frame(raw, Some(Marshal(Message("sdp", v))))]).downstream == []
  {
    RunNeverForwards(DownstreamDialed(NewSignalHandler()), [Frame(raw, Some(Marshal(Message("sdp", v))))]);
  }

  /** Concrete case: with the key decoded, the as-written switch relays a
      candidate on a session still at Start, although `CheckStatus` rejects
      that transition. */
  lemma CandidateForwardedAtStart(payload: seq<byte>)
    ensures var sh := DownstreamDialed(NewSignalHandler());
            && !CheckStatus(sh.status, SignalStatusCandidate)
            && Route(sh, "candidate", payload).downstream == [payload]
  {
  }

  /** Concrete case: with the key decoded, an sdp message moves a session at
      Candidate back to Sdp. */
  lemma SdpRegressesFromCandidate(sh: SignalHandler, payload: seq<byte>)
    requires sh.status == SignalStatusCandidate
    ensures Route(sh, "sdp", payload).status < sh.status
  {
  }

  // ---------------------------------------------------------------------
  // Corrected definitions: what the handshake design intends.
  // ---------------------------------------------------------------------

  /** `json.Unmarshal` into a struct whose fields are exported: each member
      present in the object overwrites its field; absent ones keep their value. */
  function UnmarshalExported(prev: Message, json: Option<JsonObject>): (r: Option<Message>)
    ensures r.None? <==> json.None?
    ensures json.Some? && "key" in json.value ==> r.value.key == json.value["key"]
    ensures json.Some? && "key" !in json.value ==> r.value.key == prev.key
    ensures json.Some? && "value" in json.value ==> r.value.value == json.value["value"]
    ensures json.Some? && "value" !in json.value ==> r.value.value == prev.value
  {
    match json
    case None => None
    case Some(obj) =>
      Some(Message(if "key" in obj then obj["key"] else prev.key,
                   if "value" in obj then obj["value"] else prev.value))
  }

  /** Decoding with exported fields recovers exactly the message that was sent. */
  lemma UnmarshalExportedRoundTrip(prev: Message, m: Message)
    ensures UnmarshalExported(prev, Some(Marshal(m))) == Some(m)
  {
  }

  /** A `null` frame, or an object with neither member, decodes without error
      and leaves the reused message as it was, with either decoding. */
  lemma NullKeepsMessage(prev: Message)
    ensures Unmarshal(prev, Some(map[])) == Some(prev)
    ensures UnmarshalExported(prev, Some(map[])) == Some(prev)
  {
  }

  /** The status a routed key asks to move to. */
  function Target(key: string): int {
    if key == "sdp" then SignalStatusSdp else SignalStatusCandidate
  }

  /** The switch with guards that consult the current status: a message whose
      transition the table rejects is dropped and the status kept. */
  function GuardedRoute(sh: SignalHandler, key: string, payload: seq<byte>): (r: SignalHandler)
    ensures sh.status <= r.status
    ensures r.status != sh.status ==> CheckStatus(sh.status, r.status)
    ensures (key == "sdp" || key == "candidate") && CheckStatus(sh.status, Target(key)) ==>
              r.status == Target(key) && r.downstream == Send(sh, payload).downstream
    ensures !((key == "sdp" || key == "candidate") && CheckStatus(sh.status, Target(key))) ==> r == sh
  {
    if (key == "sdp" || key == "candidate") && CheckStatus(sh.status, Target(key)) then
      Send(sh.(status := Target(key)), payload)
    else
      sh
  }

  /** The read loop with exported-field decoding and the guarded switch. */
  function GuardedRunLoop(sh: SignalHandler, msg: Message, frames: seq<Frame>): SignalHandler
    decreases |frames|
  {
    if frames == [] then sh
    else
      match UnmarshalExported(msg, frames[0].json)
      case None => GuardedRunLoop(sh, msg, frames[1..])
      case Some(m) => GuardedRunLoop(GuardedRoute(sh, m.key, frames[0].raw), m, frames[1..])
  }

  /** With the guard consulting the status, no frame sequence makes it regress. */
  lemma {:induction false} GuardedRunNeverRegresses(sh: SignalHandler, msg: Message, frames: seq<Frame>)
    ensures sh.status <= GuardedRunLoop(sh, msg, frames).status
    decreases |frames|
  {
    if frames != [] {
      match UnmarshalExported(msg, frames[0].json)
      case None =>
        GuardedRunNeverRegresses(sh, msg, frames[1..]);
      case Some(m) =>
        GuardedRunNeverRegresses(GuardedRoute(sh, m.key, frames[0].raw), m, frames[1..]);
    }
  }

  /** The frame a client sends for a message with the given key. */
  predicate Carries(f: Frame, key: string) {
    f.json.Some? && "key" in f.json.value && f.json.value["key"] == key
  }

  /** The raw payloads of a frame sequence. */
  function Raws(frames: seq<Frame>): (r: seq<seq<byte>>)
    ensures |r| == |frames|
    ensures forall i :: 0 <= i < |frames| ==> r[i] == frames[i].raw
    decreases |frames|
  {
    if frames == [] then [] else [frames[0].raw] + Raws(frames[1..])
  }

  /** One accepted frame of the guarded loop: it moves the status to the key's
      target and appends its payload to the open worker leg. */
  lemma GuardedAccept(sh: SignalHandler, msg: Message, frames: seq<Frame>, key: string)
    requires frames != [] && Carries(frames[0], key)
    requires key == "sdp" || key == "candidate"
    requires CheckStatus(sh.status, Target(key)) && !sh.isDownClosed
    ensures var m := UnmarshalExported(msg, frames[0].json).value;
            var sh' := sh.(status := Target(key), downstream := sh.downstream + [frames[0].raw]);
            GuardedRunLoop(sh, msg, frames) == GuardedRunLoop(sh', m, frames[1..])
  {
    var m := UnmarshalExported(msg, frames[0].json).value;
    assert m.key == key;
  }

  /** Every frame of the sequence carries the given key. */
  predicate AllCarry(frames: seq<Frame>, key: string) {
    forall i :: 0 <= i < |frames| ==> Carries(frames[i], key)
  }

  lemma AllCarryTail(frames: seq<Frame>, key: string)
    requires frames != []
    requires forall i :: 1 <= i < |frames| ==> Carries(frames[i], key)
    ensures AllCarry(frames[1..], key)
  {
    var rest := frames[1..];
    forall i | 0 <= i < |rest| ensures Carries(rest[i], key) {
      assert rest[i] == frames[i + 1];
    }
  }

  /** One candidate accepted past Start: the status becomes Candidate and the
      payload is appended. */
  lemma CandidateAccept(sh: SignalHandler, msg: Message, frames: seq<Frame>)
    requires frames != [] && Carries(frames[0], "candidate")
    requires sh.status == SignalStatusSdp || sh.status == SignalStatusCandidate
    requires !sh.isDownClosed
    ensures var m := UnmarshalExported(msg, frames[0].json).value;
            var sh' := sh.(status := SignalStatusCandidate, downstream := sh.downstream + [frames[0].raw]);
            GuardedRunLoop(sh, msg, frames) == GuardedRunLoop(sh', m, frames[1..])
  {
    assert Target("candidate") == SignalStatusCandidate;
    GuardedAccept(sh, msg, frames, "candidate");
  }

  /** Appending the first payload, then the payloads of the rest, appends the
      payloads of the whole sequence. */
  lemma AppendRaws(d: seq<seq<byte>>, frames: seq<Frame>)
    requires frames != []
    ensures (d + [frames[0].raw]) + Raws(frames[1..]) == d + Raws(frames)
  {
    calc {
      (d + [frames[0].raw]) + Raws(frames[1..]);
      d + ([frames[0].raw] + Raws(frames[1..]));
      d + Raws(frames);
    }
  }

  /** Once past Start, every candidate is relayed and the status is Candidate. */
  lemma {:induction false} GuardedCandidatesRelayed(sh: SignalHandler, msg: Message, frames: seq<Frame>)
    requires sh.status == SignalStatusSdp || sh.status == SignalStatusCandidate
    requires !sh.isDownClosed
    requires AllCarry(frames, "candidate")
    ensures GuardedRunLoop(sh, msg, frames).downstream == sh.downstream + Raws(frames)
    ensures frames != [] ==> GuardedRunLoop(sh, msg, frames).status == SignalStatusCandidate
    decreases |frames|
  {
    if frames != [] {
      CandidateAccept(sh, msg, frames);
      var m := UnmarshalExported(msg, frames[0].json).value;
      var sh' := sh.(status := SignalStatusCandidate, downstream := sh.downstream + [frames[0].raw]);
      var rest := frames[1..];
      AllCarryTail(frames, "candidate");
      GuardedCandidatesRelayed(sh', m, rest);
      AppendRaws(sh.downstream, frames);
    }
  }

  /** A phase-respecting handshake, one sdp then candidates, on a fresh session
      with the worker leg open: every message is relayed in order, and the
      status ends at Candidate once a candidate has been seen. */
  lemma GuardedHandshake(frames: seq<Frame>)
    requires |frames| >= 1 && Carries(frames[0], "sdp")
    requires forall i :: 1 <= i < |frames| ==> Carries(frames[i], "candidate")
    ensures var sh := DownstreamDialed(NewSignalHandler());
            && GuardedRunLoop(sh, Message("", ""), frames).downstream == Raws(frames)
            && (|frames| >= 2 ==> GuardedRunLoop(sh, Message("", ""), frames).status == SignalStatusCandidate)
  {
    var sh := DownstreamDialed(NewSignalHandler());
    GuardedAccept(sh, Message("", ""), frames, "sdp");
    var m := UnmarshalExported(Message("", ""), frames[0].json).value;
    var sh' := sh.(status := Target("sdp"), downstream := sh.downstream + [frames[0].raw]);
    assert sh'.downstream == [frames[0].raw];
    var rest := frames[1..];
    AllCarryTail(frames, "candidate");
    GuardedCandidatesRelayed(sh', m, rest);
    calc {
      GuardedRunLoop(sh, Message("", ""), frames).downstream;
      GuardedRunLoop(sh', m, rest).downstream;
      [frames[0].raw] + Raws(rest);
      Raws(frames);
    }
    assert |frames| >= 2 ==> rest != [];
  }

  /** A candidate that arrives before any sdp is dropped by the guarded switch. */
  lemma GuardedDropsEarlyCandidate(sh: SignalHandler, payload: seq<byte>)
    requires sh.status == SignalStatusStart
    ensures GuardedRoute(sh, "candidate", payload) == sh
  {
  }
}

=== FILE: worker.dfy ===
/** The worker glue of worker/worker.go: the frame geometry the decoder is
    configured with, the consumer loop that pops one decoded frame per round,
    and the read loop that routes each RTP packet of a track to the parser by
    the track's kind. */
module Worker {
  import opened Base
  import opened MediaParser

  /** The geometry the decoder is configured with, and the size of one
      decoded RGB24 frame. */
  const Width: int := 480
  const Height: int := 640
  const FrameSize: int := Width * Height * 3

  /** The text published for every frame popped. */
  const PopSuccess: string := "pop image success"

  /** The kind of a remote track. */
  datatype CodecKind = CodecUnknown | CodecAudio | CodecVideo

  /** One packet read from the track, given as the samples the track's
      sample builder releases once the packet has been pushed into it. */
  datatype RtpRead = RtpRead(released: seq<Sample>)

  /** The handler: its parser and the results it has published, in order. */
  datatype WorkerHandler = WorkerHandler(parser: Parser, results: seq<string>)

  /** `NewWorkerHandler`: a parser for a 480x640 decoder whose output is given,
      and no result published. */
  function NewWorkerHandler(ffmpegOutput: seq<byte>): (wh: WorkerHandler)
    ensures Pristine(wh.parser) && Inv(wh.parser)
    ensures wh.parser.width == 480 && wh.parser.height == 640
    ensures wh.parser.outputPipe == ffmpegOutput
    ensures wh.results == []
  {
    WorkerHandler(NewParser(Width, Height, ffmpegOutput), [])
  }

  /** A read the parser can take without an index panic, given whether it
      has seen a keyframe. */
  predicate Pushable(kind: CodecKind, seen: bool, pkt: RtpRead) {
    kind == CodecVideo ==> ReadableVideo(seen, pkt.released)
  }

  /** The switch on the track kind: audio to `PushAudio`, video to
      `PushVideo`, any other kind dropped. A routed packet's samples are
      written: audio ones once the audio writer exists, video ones to both
      the pipe and the file once those writers exist. */
  function Dispatch(p: Parser, kind: CodecKind, pkt: RtpRead): (r: Parser)
    requires Pushable(kind, p.isSeenKeyframe, pkt)
    ensures r.isSeenKeyframe == (if kind == CodecVideo then SeenAfter(p.isSeenKeyframe, pkt.released) else p.isSeenKeyframe)
    ensures r.isClosed == p.isClosed && r.outputPipe == p.outputPipe && r.effects == p.effects
    ensures kind == CodecUnknown ==> r == p
    ensures kind == CodecAudio ==> r.(audioTimestamp := p.audioTimestamp, audioWriter := p.audioWriter) == p
    ensures kind == CodecVideo ==> r.audioTimestamp == p.audioTimestamp
    ensures kind == CodecVideo && p.isSeenKeyframe ==> r.audioWriter == p.audioWriter
    ensures kind == CodecAudio && p.audioWriter.Some? ==>
              && r.audioWriter.Some?
              && AudioWrites(p.audioWriter.value.blocks, r.audioWriter.value.blocks, p.audioTimestamp, pkt.released)
    ensures kind == CodecVideo && Inv(p) && p.pipeWriter.Some? ==>
              && r.pipeWriter.Some? && r.fileWriter == r.pipeWriter
              && VideoWrites(p.pipeWriter.value.blocks, r.pipeWriter.value.blocks, p.videoTimestamp, pkt.released)
  {
    match kind
    case CodecAudio =>
      if p.audioWriter.Some? then
        PushAudioWrites(p, pkt.released);
        PushAudio(p, pkt.released)
      else
        PushAudio(p, pkt.released)
    case CodecVideo =>
      if Inv(p) && p.pipeWriter.Some? then
        PushVideoWrites(p, pkt.released);
        PushVideo(p, pkt.released)
      else
        PushVideo(p, pkt.released)
    case CodecUnknown => p
  }

  /** A video track every read of which the parser can take in turn. */
  predicate VideoTrackReadable(seen: bool, packets: seq<RtpRead>)
    decreases |packets|
  {
    packets == [] ||
    (ReadableVideo(seen, packets[0].released) && VideoTrackReadable(SeenAfter(seen, packets[0].released), packets[1..]))
  }

  /** A track the parser can take without an index panic: only video samples
      are read by the parser. */
  predicate TrackPushable(kind: CodecKind, seen: bool, packets: seq<RtpRead>) {
    kind == CodecVideo ==> VideoTrackReadable(seen, packets)
  }

  /** Every read routed to the parser in order: the reference for `OnTrack`
      on an open parser. */
  function DispatchAll(p: Parser, kind: CodecKind, packets: seq<RtpRead>): Parser
    requires TrackPushable(kind, p.isSeenKeyframe, packets)
    decreases |packets|
  {
    if packets == [] then p else DispatchAll(Dispatch(p, kind, packets[0]), kind, packets[1..])
  }

  /** `OnTrack`'s read loop over a finite stream of packets. Each packet is read
      first; if the parser is closed the loop stops before pushing it. */
  method OnTrack(wh: WorkerHandler, kind: CodecKind, packets: seq<RtpRead>)
    returns (wh': WorkerHandler, pushed: nat)
    requires !wh.parser.isClosed ==> TrackPushable(kind, wh.parser.isSeenKeyframe, packets)
    ensures wh.parser.isClosed ==> wh' == wh && pushed == 0
    ensures !wh.parser.isClosed ==> pushed == |packets| && wh'.parser == DispatchAll(wh.parser, kind, packets)
    ensures wh'.results == wh.results
  {
    var cur := wh.parser;
    var n := 0;
    pushed := 0;
    while n < |packets|
      invariant 0 <= n <= |packets| && pushed == n
      invariant cur.isClosed == wh.parser.isClosed
      invariant wh.parser.isClosed ==> n == 0 && cur == wh.parser
      invariant !wh.parser.isClosed ==> TrackPushable(kind, cur.isSeenKeyframe, packets[n..])
      invariant !wh.parser.isClosed ==> DispatchAll(cur, kind, packets[n..]) == DispatchAll(wh.parser, kind, packets)
    {
      var pkt := packets[n];
      if cur.isClosed {
        break;
      }
      assert packets[n..][1..] == packets[n + 1..];
      cur := Dispatch(cur, kind, pkt);
      n := n + 1;
      pushed := pushed + 1;
    }
    wh' := wh.(parser := cur);
  }

  /** Routing one read preserves the parser invariant. */
  lemma DispatchInv(p: Parser, kind: CodecKind, pkt: RtpRead)
    requires Inv(p) && Pushable(kind, p.isSeenKeyframe, pkt)
    ensures Inv(Dispatch(p, kind, pkt))
  {
    match kind
    case CodecAudio => PushAudioInv(p, pkt.released);
    case CodecVideo => PushVideoInv(p, pkt.released);
    case CodecUnknown =>
  }

  /** Routing preserves the parser invariant. */
  lemma {:induction false} DispatchAllInv(p: Parser, kind: CodecKind, packets: seq<RtpRead>)
    requires Inv(p) && TrackPushable(kind, p.isSeenKeyframe, packets)
    ensures Inv(DispatchAll(p, kind, packets))
    decreases |packets|
  {
    if packets != [] {
      DispatchInv(p, kind, packets[0]);
      DispatchAllInv(Dispatch(p, kind, packets[0]), kind, packets[1..]);
    }
  }

  /** An audio track routed before any video keyframe has been seen is
      dropped whole: the audio writer does not exist yet. */
  lemma {:induction false} AudioBeforeKeyframeDropped(p: Parser, packets: seq<RtpRead>)
    requires Inv(p) && !p.isSeenKeyframe
    ensures DispatchAll(p, CodecAudio, packets) == p
    decreases |packets|
  {
    if packets != [] {
      AudioDroppedWithoutWriter(p, packets[0].released);
      AudioBeforeKeyframeDropped(p, packets[1..]);
    }
  }

  /** A track of unknown kind never reaches the parser. */
  lemma {:induction false} UnknownKindDropped(p: Parser, packets: seq<RtpRead>)
    ensures DispatchAll(p, CodecUnknown, packets) == p
    decreases |packets|
  {
    if packets != [] {
      UnknownKindDropped(p, packets[1..]);
    }
  }

  /** A video track never moves the audio counter. */
  lemma {:induction false} VideoTrackKeepsAudioCounter(p: Parser, packets: seq<RtpRead>)
    requires TrackPushable(CodecVideo, p.isSeenKeyframe, packets)
    ensures DispatchAll(p, CodecVideo, packets).audioTimestamp == p.audioTimestamp
    decreases |packets|
  {
    if packets != [] {
      VideoTrackKeepsAudioCounter(Dispatch(p, CodecVideo, packets[0]), packets[1..]);
    }
  }

  /** On a new handler, the first video keyframe replaces the configured
      480x640 geometry with its as-written reading. */
  lemma FirstKeyframeOverridesConfiguredGeometry(out: seq<byte>, s: Sample)
    requires IsKeyframe(s.data) && |s.data| >= 10
    ensures var r := Dispatch(NewWorkerHandler(out).parser, CodecVideo, RtpRead([s]));
            && r.isSeenKeyframe
            && r.width == s.data[6] as int
            && r.height == (s.data[9] as int % 64) * 256
  {
    var p := NewWorkerHandler(out).parser;
    FirstKeyframeSetsGeometry(p, [s], 0);
  }

  /** The bytes `Run` pops when the decoder's output is `out` and `total`
      bytes are asked for: the output, then zeros once it runs dry. */
  function Padded(out: seq<byte>, total: nat): (d: seq<byte>)
    ensures |d| == |out| + total
    ensures d[..|out|] == out
  {
    out + Zeros(total)
  }

  /** A window of the padded output is the output itself, the output's tail
      followed by zeros, or zeros alone. */
  lemma PaddedWindow(out: seq<byte>, total: nat, a: nat, len: nat)
    requires a + len <= total
    ensures a + len <= |out| ==> Padded(out, total)[a..a + len] == out[a..a + len]
    ensures a <= |out| < a + len ==> Padded(out, total)[a..a + len] == out[a..] + Zeros(a + len - |out|)
    ensures |out| < a ==> Padded(out, total)[a..a + len] == Zeros(len)
  {
    var d := Padded(out, total);
    if a <= |out| < a + len {
      var w := out[a..] + Zeros(a + len - |out|);
      assert |d[a..a + len]| == |w|;
      forall i | 0 <= i < len ensures d[a..a + len][i] == w[i] {
        if a + i < |out| {
          assert d[a + i] == out[a + i];
        } else {
          assert d[a + i] == 0;
        }
      }
    } else if |out| < a {
      forall i | 0 <= i < len ensures d[a..a + len][i] == Zeros(len)[i] {
        assert d[a + i] == 0;
      }
    }
  }

  /** What the decoder output still holds after `n` frames have been popped
      from an output that started as `out`. */
  predicate PipeAfter(out: seq<byte>, n: nat, pipe: seq<byte>) {
    && (n * FrameSize <= |out| ==> pipe == out[n * FrameSize..])
    && (|out| < n * FrameSize ==> pipe == [])
  }

  /** One round of `Run`: the frame popped is the next window of the padded
      output, and the pipe advances by one frame. */
  lemma PopRound(out: seq<byte>, total: nat, n: nat, pipe: seq<byte>, image: seq<byte>, pipe': seq<byte>)
    requires (n + 1) * FrameSize <= total
    requires PipeAfter(out, n, pipe)
    requires FrameSize <= |pipe| ==> image == pipe[..FrameSize] && pipe' == pipe[FrameSize..]
    requires |pipe| < FrameSize ==> image == pipe + Zeros(FrameSize - |pipe|) && pipe' == []
    ensures image == Padded(out, total)[n * FrameSize..(n + 1) * FrameSize]
    ensures PipeAfter(out, n + 1, pipe')
  {
    PaddedWindow(out, total, n * FrameSize, FrameSize);
    if |out| < n * FrameSize {
      assert [] + Zeros(FrameSize) == Zeros(FrameSize);
    } else if (n + 1) * FrameSize <= |out| {
      assert pipe[..FrameSize] == out[n * FrameSize..(n + 1) * FrameSize];
    }
  }

  /** `Run` until its context is seen cancelled: the context is consulted
      only after each round, so `liveChecks` checks that find it live mean
      `liveChecks + 1` rounds. Each round pops one `FrameSize` buffer and
      publishes a result. */
  method Run(wh: WorkerHandler, liveChecks: nat) returns (wh': WorkerHandler, images: seq<seq<byte>>)
    ensures |images| == liveChecks + 1
    ensures forall i :: 0 <= i < |images| ==> |images[i]| == 921600
    ensures forall i :: 0 <= i < |images| ==>
              images[i] == Padded(wh.parser.outputPipe, |images| * FrameSize)[i * FrameSize..(i + 1) * FrameSize]
    ensures |images| * FrameSize <= |wh.parser.outputPipe| ==>
              wh'.parser.outputPipe == wh.parser.outputPipe[|images| * FrameSize..]
    ensures |wh.parser.outputPipe| < |images| * FrameSize ==> wh'.parser.outputPipe == []
    ensures wh'.parser == wh.parser.(outputPipe := wh'.parser.outputPipe)
    ensures wh'.results == wh.results + seq(|images|, _ => PopSuccess)
  {
    var out := wh.parser.outputPipe;
    var rounds := liveChecks + 1;
    var total := rounds * FrameSize;
    var p := wh.parser;
    var results := wh.results;
    images := [];
    var n := 0;
    while n < rounds
      invariant 0 <= n <= rounds && |images| == n
      invariant PipeAfter(out, n, p.outputPipe)
      invariant p == wh.parser.(outputPipe := p.outputPipe)
      invariant forall i :: 0 <= i < n ==> |images[i]| == FrameSize
      invariant forall i :: 0 <= i < n ==>
                  images[i] == Padded(out, total)[i * FrameSize..(i + 1) * FrameSize]
      invariant results == wh.results + seq(n, _ => PopSuccess)
    {
      var pipe := p.outputPipe;
      var image;
      p, image := PopImage(p, FrameSize);
      PopRound(out, total, n, pipe, image, p.outputPipe);
      images := images + [image];
      results := results + [PopSuccess];
      n := n + 1;
    }
    wh' := WorkerHandler(p, results);
  }
}
